=== FILE: README.md ===
# Bank ledger model

A Dafny model of the core of a small in-memory bank: the accounts (`BankAccount` and
its interest-bearing subclass `SavingsAccount`), the ledger that holds them in
insertion order (`Bank`), and the comma-separated record format the ledger saves
and loads.

- `ints.dfy` (`Ints`): Java's 32-bit `int`, used for account ids, and the
  wrap-around of `id + 1`.
- `outcomes.dfy` (`Outcomes`): one `Error` variant per exception
  (`InvalidAmount`, `InvalidRate`, `InsufficientFunds(available, requested)`,
  `AccountNotFound(id)`, `ParseError`), `Result` for queries, and
  `Effect(state, outcome)` for calls that change state. An `Effect` always
  carries the state left after the call, even when the call raised. That way
  "a failed call changes nothing" is a real statement, not something true by
  construction.
- `accounts.dfy` (`Accounts`): `Account = Plain(id, balance) | Savings(id, balance, rate)`,
  with deposit, withdraw, the rate setter, `equals`, and the estimated returns.
- `bank.dfy` (`Bank`): the ledger as `seq<Account>`. It has the linear-scan lookups,
  `getNextAccountID`, the two open operations, `closeAccount` and `transferFunds`.
  `getAccountIndex` and `closeAccount` go through `ArrayList.indexOf` and
  `ArrayList.remove`, which compare accounts with `equals` (id and balance). The
  model keeps those calls and proves that they find the same position as the
  scan.
- `bank_properties.dfy` (`BankProperties`): lemmas across several calls. These cover
  transfer effects and the total balance, id assignment from an empty ledger,
  reuse of a closed id, and ascending ids being kept by open and close.
- `records.dfy` (`Records`): the save/load record layer. It covers `String.split(",")`
  (trailing empty fields dropped), `String.join`, parsing one record, and reading
  a sequence of lines. The number↔text conversions are a `TextCodec` parameter.
  The round trip is proved for any codec under which every saved number
  survives. That means each number formats to a non-empty, comma-free field that
  parses back to the same number. Only the numbers actually in the ledger are
  constrained, as with doubles through `String.valueOf` and `Double.parseDouble`.
  A literal codec for a two-account example (plain account 1 holding 50, savings
  account 2 holding 250 at rate 0.05; `Records.ExampleCodec`) shows that the
  condition can be met.

Balances and rates are exact `real`s. Ids are 32-bit integers.

Behaviour of the code worth knowing:
- Loading appends to the current ledger; it does not clear it.
- Loading is not atomic. Accounts read before a line that fails to parse stay in
  the ledger, and the failing line adds nothing (`Records.ReadAccounts`,
  `Records.FailStep`).
- Ids are not guaranteed unique. `getNextAccountID` follows the last account,
  not the largest id. A ledger loaded out of order can therefore get a duplicate
  id (`BankProperties.OpenCanDuplicateId`).
- A deposit followed by a withdrawal of the same amount gives the original
  account back only when the balance was not negative. A loaded record may have
  a negative balance; then the withdrawal is refused
  (`Accounts.DepositThenWithdraw`).

## Model

| member | source | states |
|---|---|---|
| `Ints.Succ` | src/Bank.java:71 | `id + 1` on a Java `int` is the 32-bit wrap of the true successor, and it is larger than `id` except at the top of the range |
| `Ints.Wrap` | src/Bank.java:71 | the 32-bit narrowing is congruent to its argument modulo 2^32 and is the identity on in-range values |
| `Accounts.Deposit` | src/BankAccount.java:23-30 | succeeds iff amount > 0; on failure raises InvalidAmount and the account is unchanged; on success the balance grows by exactly the amount; id, variant and rate never change |
| `Accounts.Withdraw` | src/BankAccount.java:33-42 | succeeds iff 0 < amount <= balance; amount <= 0 raises InvalidAmount; amount > balance raises InsufficientFunds(balance, amount); failure leaves the account unchanged; success lowers the balance by the amount and leaves it >= 0; id, variant and rate never change |
| `Accounts.SetInterestRate` | src/SavingsAccount.java:25-33 | succeeds iff 0 < rate < 1; otherwise raises InvalidRate with the account unchanged; on success the rate is exactly the new one and lies in (0, 1); id and balance are kept |
| `Accounts.AnnualReturn` | src/SavingsAccount.java:35-36 | for a non-negative balance and a rate in (0, 1) the annual return lies between 0 and the balance, strictly when the balance is positive |
| `Accounts.MonthlyReturn` | src/SavingsAccount.java:44-46 | twelve monthly returns make exactly the annual return |
| `Accounts.DepositThenWithdraw` | src/BankAccount.java:23-42 | depositing then withdrawing a positive amount restores the account exactly when its balance was >= 0; from a negative balance the withdrawal raises InsufficientFunds and the deposit stays |
| `Accounts.IdIsFixed` | src/BankAccount.java:7-13 | no deposit or withdrawal changes an account's id |
| `BankProperties.RateUncheckedAtConstruction` | src/SavingsAccount.java:7-11 | opening a savings account stores any given rate unchanged, and when that rate is outside (0, 1) the setter refuses it for the same account |
| `Accounts.SameAccount` | src/BankAccount.java:67-74 | `equals` holds exactly when the two accounts agree once reduced to their plain id-and-balance part, and every account equals itself |
| `Accounts.EqualityIgnoresRate` | src/BankAccount.java:67-74 | accounts with the same id and balance are equal whatever their rates or variants, though they are different values |
| `Accounts.SameAccountIsEquivalence` | src/BankAccount.java:67-74 | `equals` is reflexive, symmetric and transitive |
| `Bank.Scan` | src/Bank.java:45-50 | the scan returns the first position holding the id, or AccountNotFound(id) when no account has it |
| `Bank.GetAccount` | src/Bank.java:44-51 | fails iff no account has the id, with AccountNotFound(id); otherwise returns the account at the first position holding the id |
| `Bank.IndexOfEqual` | src/Bank.java:57 | `indexOf` returns the first position whose account has the same id and balance, or -1 when there is none |
| `Bank.GetAccountIndex` | src/Bank.java:54-61 | fails iff no account has the id, with AccountNotFound(id); otherwise returns the first position holding the id, even though the position is found by id-and-balance equality |
| `Bank.NextAccountId` | src/Bank.java:64-76 | 1 on an empty ledger, otherwise the 32-bit successor of the last account's id |
| `Bank.OpenBankAccount` | src/Bank.java:79-83 | the ledger grows by exactly one account at the end, a plain account with the next id and balance 0; the prefix is unchanged |
| `Bank.OpenSavingsAccount` | src/Bank.java:86-90 | as for plain accounts, and the new savings account keeps the given rate unvalidated |
| `Bank.RemoveFirstEqual` | src/Bank.java:95 | `remove` drops exactly the element at the `indexOf` position and keeps the others in order, or changes nothing when no element is equal |
| `Bank.CloseAccount` | src/Bank.java:93-96 | fails iff the id is absent, with AccountNotFound(id) and the ledger unchanged; otherwise removes exactly the first account with the id, keeping the others in order |
| `Bank.TransferFunds` | src/Bank.java:98-109 | length, ids, variants and rates are always kept; any failure leaves the whole ledger unchanged; amount <= 0 raises InvalidAmount before any lookup; a missing source raises AccountNotFound(from), then a missing destination AccountNotFound(to) |
| `BankProperties.IndexAgreesWithLookup` | src/Bank.java:44-61 | `getAccountIndex` succeeds exactly when `getAccount` does, and the index points at the account `getAccount` returns |
| `BankProperties.TotalAfterUpdate` | src/Bank.java:103-105 | replacing one account changes the total balance by exactly that account's change |
| `BankProperties.TransferMovesAmount` | src/Bank.java:98-105 | with distinct ids and sufficient funds, the transfer succeeds, the source loses the amount, the destination gains it, and every other account is untouched |
| `BankProperties.TransferToSelf` | src/Bank.java:98-105 | a successful transfer from an account to itself leaves the ledger exactly as it was |
| `BankProperties.TransferInsufficientFunds` | src/Bank.java:98-105 | when the source holds less than the amount, the transfer raises InsufficientFunds(source balance, amount) and every balance stays the same |
| `BankProperties.TransferKeepsTotal` | src/Bank.java:98-109 | every transfer, successful or not, keeps the sum of all balances |
| `BankProperties.TransferThenBack` | src/Bank.java:98-109 | a successful transfer followed by the same transfer back restores the ledger exactly, when the destination's balance was not negative |
| `BankProperties.TransferScenario` | src/Bank.java:98-109 | transferring 50 from plain account 1 (100) to savings account 2 (200, rate 0.05) yields 50 and 250 with the rate kept; looking up id 99 raises AccountNotFound(99) |
| `BankProperties.OpenFromEmpty` | src/Bank.java:64-83 | opening n accounts on an empty ledger yields plain accounts with ids 1..n and balance 0 |
| `BankProperties.OpenKeepsIdsAscending` | src/Bank.java:64-90 | opening either kind of account keeps ids strictly ascending unless the last id is the largest int |
| `BankProperties.OpenWrapsAtMaxId` | src/Bank.java:71 | on any ledger whose last account holds the largest int, the next id wraps to the smallest and ids stop ascending |
| `BankProperties.OpenThenClose` | src/Bank.java:79-96 | opening an account (plain or savings) whose id is new to the ledger and closing that id gives back the original ledger |
| `BankProperties.CloseKeepsIdsAscending` | src/Bank.java:93-96 | closing keeps ids strictly ascending, and on such a ledger the closed id is gone afterwards |
| `BankProperties.ReopenReusesClosedId` | src/Bank.java:64-96 | after opening n accounts, closing account n and opening again hands out id n a second time |
| `BankProperties.OpenCanDuplicateId` | src/Bank.java:64-83 | on the ledger with ids `[3, 2]` the next id is 3, already held by the first account |
| `Records.Split` | src/Bank.java:20 | fields never contain a comma; a line without a comma is its own single field; otherwise the last field is never empty |
| `Records.JoinOfPieces` | src/Bank.java:20 | cutting a line at every comma loses nothing: joining the pieces with commas gives the line back |
| `Records.JoinSplit` | src/Bank.java:20 | for a line with a comma, `split` drops only trailing empty fields: padding its fields with empty ones up to the number of comma-separated pieces and joining gives the line back, so leading and middle empty fields stay in place |
| `Records.Join` | src/Bank.java:133 | the joined line starts with the first field, and a comma follows it whenever there is a second field |
| `Records.SplitJoin` | src/Bank.java:133 | splitting the comma-join of two or more non-empty comma-free fields gives the fields back |
| `Records.SplitTrailingComma` | src/Bank.java:20-27 | `7,2.5,` splits into two fields, so it is read as a plain account |
| `Records.SplitOnlyCommas` | src/Bank.java:20-23 | a line of commas alone has no fields, so it is skipped |
| `Records.SplitEmptyMiddle` | src/Bank.java:20-25 | an empty middle field is kept as a field and reaches the balance parser |
| `Records.RecordFields` | src/Bank.java:119-131 | a plain account is saved as 2 fields, a savings account as 3 |
| `Records.RecordSplits` | src/Bank.java:119-133 | splitting the comma-join of an account's saved fields gives back those fields whenever its numbers survive the codec |
| `Records.RecordLine` | src/Bank.java:119-133 | when the account's numbers survive the codec, splitting the saved line gives back exactly the account's 2 or 3 fields |
| `Records.SaveAccounts` | src/Bank.java:115-135 | one line per account, in ledger order, each the comma-joined fields of that account |
| `Records.ParseRecord` | src/Bank.java:20-35 | fewer than 2 fields are skipped; ParseError is raised exactly when there are at least 2 fields and the id, the balance or (with 3 fields) the rate fails to parse, whatever the field count beyond that; 2 or 3 well-formed fields always yield an account, plain for 2 and savings for 3, with the parsed id, balance and rate; 4 or more fields add nothing |
| `Records.ReadAccounts` | src/Bank.java:12-38 | the given ledger is kept as a prefix and at most one account is added per line; reading succeeds exactly when every line parses, and otherwise fails with ParseError |
| `Records.ReadStep` | src/Bank.java:27-33 | a line that parses to an account appends it to the ledger, and reading goes on with the next line |
| `Records.SkipStep` | src/Bank.java:23-34 | a line that yields no account (fewer than 2 fields, or 4 or more whose id and balance parse) adds nothing, and reading goes on with the next line |
| `Records.NoAccountLines` | src/Bank.java:12-38 | lines that all yield no account leave the ledger exactly as it was and raise nothing |
| `Records.FailStep` | src/Bank.java:24-31 | a line whose id, balance or rate fails to parse raises ParseError at once, adds nothing, and keeps the accounts read before it |
| `Records.RecordRoundTrip` | src/Bank.java:119-133 | when the account's numbers survive the codec, its saved line splits into 2 or 3 fields as the variant requires and parses back to the same account |
| `Records.SaveThenRead` | src/Bank.java:12-38 | when every saved number survives the codec, reading the saved lines into a ledger appends exactly the saved accounts, in order, without error |
| `Records.SaveThenLoad` | src/Bank.java:12-38 | saving then loading into an empty ledger reproduces the ledger: ids, balances, variants, rates and order |
| `Records.ExampleSaveThenLoad` | src/Bank.java:12-38 | with a literal codec, plain account 1 (50) and savings account 2 (250, rate 0.05) are saved as `1,50.0` and `2,250.0,0.05`, and loading those lines gives the same ledger |
| `Records.LoadAppends` | src/Bank.java:29-33 | loading into a non-empty ledger keeps its accounts in front and adds one per saved account |

## Left out

- File handling in `readAccounts` / `saveAccounts` is not modelled: opening, `Scanner` line splitting, `PrintWriter` line terminators, closing, and `FileNotFoundException` / `IOException`. The model works on the sequence of lines.
- `Integer.parseInt`, `Double.parseDouble` and `String.valueOf` are not modelled. They are library conversions, so they are the `TextCodec` parameter.
- Records.SaveThenRead: the model assumes the saved numbers survive the codec and does not prove it for Java's `String.valueOf` / `Double.parseDouble`, because those are library conversions on doubles.
- Records.SaveThenLoad: makes the same assumption on the codec as `Records.SaveThenRead`.
- IEEE-754 doubles are not modelled. Balances and rates are exact reals, so NaN, infinities and rounding in `+=`, `-=`, `*` and `/ 12` are absent. One consequence: `Double.parseDouble("NaN")` can load a NaN balance, and then `equals` is irreflexive (src/BankAccount.java:70). For such an account `getAccountIndex` returns -1 (src/Bank.java:57) and `closeAccount` returns normally having removed nothing (src/Bank.java:95). `Bank.GetAccountIndex` and `Bank.CloseAccount` cannot do either.
- Accounts.DepositThenWithdraw: exact restoration holds over reals; with doubles, `(b + a) - a` can differ from `b` by rounding.
- Presentation code is not modelled: `getFormattedAccountNumber`, `getFormattedCurrentBalance`, `getFormattedInterestRate`, the currency strings of the estimated returns, and both `toString` methods.
- `getAccounts` is not modelled. It hands out the live list, and a value model has no aliasing to describe.
- `getAccount`, `openBankAccount` and `openSavingsAccount` return the account object stored in the list, so a caller's later `deposit`, `withdraw` or `setInterestRate` on it changes the ledger. In the model `Bank.GetAccount` and `Opened.account` are copies, and only `Bank.TransferFunds` changes an account inside the ledger; the references `transferFunds` uses itself are modelled through positions.
- The exception classes are not modelled. They only build message strings; their data is carried by `InsufficientFunds(available, requested)` and `AccountNotFound(id)`.
- `equals` against an object that is not a `BankAccount` falls back to identity. Every comparison in the ledger is between accounts, so that branch is not modelled.

=== FILE: accounts.dfy ===
/** A single account: the plain `BankAccount` and the interest-bearing
    `SavingsAccount` that extends it, as one datatype with two variants.
    Balances and rates are exact reals. */
module Accounts {
  import opened Ints
  import opened Outcomes

  /** `Plain` is a BankAccount, `Savings` a SavingsAccount. Both constructors
      store what they are given: in particular the savings rate is not
      checked against (0, 1) at construction. */
  datatype Account =
    | Plain(id: int32, balance: real)
    | Savings(id: int32, balance: real, rate: real)

  /** The range `setInterestRate` accepts. */
  predicate ValidRate(rate: real) {
    0.0 < rate < 1.0
  }

  /** `b` is `a` with at most its balance changed: same id, same variant and,
      for a savings account, the same rate. */
  predicate SameHolder(a: Account, b: Account) {
    && a.id == b.id
    && a.Savings? == b.Savings?
    && (a.Savings? ==> a.rate == b.rate)
  }

  /** `BankAccount.equals`: ids and balances are compared, the variant and
      the savings rate are not. */
  predicate SameAccount(a: Account, b: Account)
    ensures a == b ==> SameAccount(a, b)
    ensures SameAccount(a, b) <==> Plain(a.id, a.balance) == Plain(b.id, b.balance)
  {
    a.id == b.id && a.balance == b.balance
  }

  /** `deposit(amount)`: rejects a non-positive amount, otherwise adds it. */
  function Deposit(a: Account, amount: real): (r: Effect<Account>)
    ensures SameHolder(a, r.state)
    ensures r.outcome.Pass? <==> amount > 0.0
    ensures r.outcome.Fail? ==> r.outcome.error == InvalidAmount && r.state == a
    ensures r.outcome.Pass? ==> r.state.balance - a.balance == amount
  {
    if amount <= 0.0 then Effect(a, Fail(InvalidAmount))
    else Effect(a.(balance := a.balance + amount), Pass)
  }

  /** `withdraw(amount)`: rejects a non-positive amount, then an amount above
      the balance, otherwise subtracts it. */
  function Withdraw(a: Account, amount: real): (r: Effect<Account>)
    ensures SameHolder(a, r.state)
    ensures r.outcome.Pass? <==> 0.0 < amount <= a.balance
    ensures r.outcome.Fail? ==> r.state == a
    ensures amount <= 0.0 ==> r.outcome == Fail(InvalidAmount)
    ensures 0.0 < amount && a.balance < amount ==>
              r.outcome == Fail(InsufficientFunds(a.balance, amount))
    ensures r.outcome.Pass? ==> a.balance - r.state.balance == amount && r.state.balance >= 0.0
  {
    if amount <= 0.0 then Effect(a, Fail(InvalidAmount))
    else if amount > a.balance then Effect(a, Fail(InsufficientFunds(a.balance, amount)))
    else Effect(a.(balance := a.balance - amount), Pass)
  }

  /** `setInterestRate(rate)` on a savings account: rejects a rate <= 0, then a
      rate >= 1, otherwise replaces the rate. */
  function SetInterestRate(a: Account, rate: real): (r: Effect<Account>)
    requires a.Savings?
    ensures r.state.Savings? && r.state.id == a.id && r.state.balance == a.balance
    ensures r.outcome.Pass? <==> ValidRate(rate)
    ensures r.outcome.Fail? ==> r.outcome.error == InvalidRate && r.state == a
    ensures r.outcome.Pass? ==> r.state.rate == rate && ValidRate(r.state.rate)
  {
    if rate <= 0.0 then Effect(a, Fail(InvalidRate))
    else if rate >= 1.0 then Effect(a, Fail(InvalidRate))
    else Effect(a.(rate := rate), Pass)
  }

  /** `amount * rate`: for a rate in (0, 1) and a non-negative amount, a
      share of the amount no larger than it. */
  function Share(amount: real, rate: real): (r: real)
    ensures amount >= 0.0 && ValidRate(rate) ==> 0.0 <= r <= amount
    ensures amount > 0.0 && ValidRate(rate) ==> 0.0 < r < amount
  {
    assert amount - amount * rate == amount * (1.0 - rate);
    amount * rate
  }

  /** `getEstimatedAnnualReturn` without its currency formatting: the balance
      times the rate. */
  function AnnualReturn(a: Account): (r: real)
    requires a.Savings?
    ensures a.balance >= 0.0 && ValidRate(a.rate) ==> 0.0 <= r <= a.balance
    ensures a.balance > 0.0 && ValidRate(a.rate) ==> 0.0 < r < a.balance
  {
    Share(a.balance, a.rate)
  }

  /** `getEstimatedMonthlyReturn` without its currency formatting. */
  function MonthlyReturn(a: Account): (r: real)
    requires a.Savings?
    ensures r * 12.0 == AnnualReturn(a)
  {
    a.balance * a.rate / 12.0
  }

  /** A deposit followed by a withdrawal of the same positive amount gives back
      the account exactly as it was, provided the balance was not negative to
      begin with (a loaded record may carry a negative balance). From a negative
      balance the withdrawal is refused and the deposit stays. */
  lemma DepositThenWithdraw(a: Account, amount: real)
    requires amount > 0.0
    ensures Deposit(a, amount).outcome == Pass
    ensures a.balance >= 0.0 ==> Withdraw(Deposit(a, amount).state, amount) == Effect(a, Pass)
    ensures a.balance < 0.0 ==>
              Withdraw(Deposit(a, amount).state, amount)
              == Effect(Deposit(a, amount).state, Fail(InsufficientFunds(a.balance + amount, amount)))
  {
    var d := Deposit(a, amount).state;
    if a.balance >= 0.0 {
      assert d.(balance := d.balance - amount) == a;
    }
  }

  /** Neither deposit nor withdraw ever changes the id, whatever the amount. */
  lemma IdIsFixed(a: Account, amount: real)
    ensures Deposit(a, amount).state.id == a.id
    ensures Withdraw(a, amount).state.id == a.id
  {
  }

  /** Equality ignores the savings rate and the variant: two savings accounts
      with different rates, or a plain and a savings account, are equal as
      soon as id and balance agree. */
  lemma EqualityIgnoresRate(id: int32, balance: real, rate1: real, rate2: real)
    ensures SameAccount(Savings(id, balance, rate1), Savings(id, balance, rate2))
    ensures SameAccount(Plain(id, balance), Savings(id, balance, rate1))
    ensures rate1 != rate2 ==> Savings(id, balance, rate1) != Savings(id, balance, rate2)
  {
  }

  /** `SameAccount` is an equivalence, as `equals` must be. */
  lemma SameAccountIsEquivalence(a: Account, b: Account, c: Account)
    ensures SameAccount(a, a)
    ensures SameAccount(a, b) ==> SameAccount(b, a)
    ensures SameAccount(a, b) && SameAccount(b, c) ==> SameAccount(a, c)
  {
  }
}

=== FILE: bank.dfy ===
/** The ledger (`Bank`): an ordered sequence of accounts, in insertion order,
    with lookup, id assignment, opening, closing and transfers. Every call that
    changes the ledger returns the ledger it leaves behind, raised or not. */
module Bank {
  import opened Ints
  import opened Outcomes
  import opened Accounts

  type Ledger = seq<Account>

  /** `i` is the position the ledger's linear scan stops at for `id`: the
      first position holding that id. */
  ghost predicate FirstWithId(l: Ledger, id: int32, i: int) {
    0 <= i < |l| && l[i].id == id && forall j :: 0 <= j < i ==> l[j].id != id
  }

  /** No account in the ledger has this id. */
  ghost predicate Absent(l: Ledger, id: int32) {
    forall j :: 0 <= j < |l| ==> l[j].id != id
  }

  /** The sum of all balances. */
  function TotalBalance(l: Ledger): real
  {
    if |l| == 0 then 0.0 else l[0].balance + TotalBalance(l[1..])
  }

  /** The for-each scan shared by `getAccount` and `getAccountIndex`: the
      position of the first account with `id`, or AccountNotFound(id). */
  function Scan(l: Ledger, id: int32): (r: Result<nat>)
    ensures r.Ok? ==> FirstWithId(l, id, r.value)
    ensures r.Err? ==> r.error == AccountNotFound(id) && Absent(l, id)
  {
    if |l| == 0 then Err(AccountNotFound(id))
    else if l[0].id == id then Ok(0)
    else match Scan(l[1..], id)
      case Ok(i) => Ok(i + 1)
      case Err(e) => Err(e)
  }

  /** `getAccount(id)`: the first account with that id. */
  function GetAccount(l: Ledger, id: int32): (r: Result<Account>)
    ensures r.Err? <==> Absent(l, id)
    ensures r.Err? ==> r.error == AccountNotFound(id)
    ensures r.Ok? ==> exists i :: FirstWithId(l, id, i) && l[i] == r.value
  {
    var i :- Scan(l, id);
    Ok(l[i])
  }

  /** `ArrayList.indexOf(a)`: the first position holding an account that
      `equals` `a` (same id and balance), or -1. */
  function IndexOfEqual(l: Ledger, a: Account): (r: int)
    ensures -1 <= r < |l|
    ensures r >= 0 ==> SameAccount(l[r], a) && forall j :: 0 <= j < r ==> !SameAccount(l[j], a)
    ensures r == -1 ==> forall j :: 0 <= j < |l| ==> !SameAccount(l[j], a)
  {
    if |l| == 0 then -1
    else if SameAccount(l[0], a) then 0
    else
      var k := IndexOfEqual(l[1..], a);
      if k == -1 then -1 else k + 1
  }

  /** `getAccountIndex(id)`: scans for the account, then asks `indexOf` for its
      position. Because `indexOf` compares by id and balance, and no earlier
      account has the id, it lands on the scan's own position. */
  function GetAccountIndex(l: Ledger, id: int32): (r: Result<int>)
    ensures r.Err? <==> Absent(l, id)
    ensures r.Err? ==> r.error == AccountNotFound(id)
    ensures r.Ok? ==> FirstWithId(l, id, r.value)
  {
    var i :- Scan(l, id);
    Ok(IndexOfEqual(l, l[i]))
  }

  /** `getNextAccountID`: 1 for an empty ledger, otherwise the id of the last
      account in sequence order plus one (in 32-bit arithmetic). It is not
      the maximum id plus one. */
  function NextAccountId(l: Ledger): (r: int32)
    ensures |l| == 0 ==> r == 1
    ensures |l| > 0 ==> r == Succ(l[|l| - 1].id)
  {
    if |l| > 0 then Succ(l[|l| - 1].id) else 1
  }

  /** A newly opened account and the ledger it was appended to. */
  datatype Opened = Opened(ledger: Ledger, account: Account)

  /** `openBankAccount`: appends a plain account with the next id and a zero
      balance. */
  function OpenBankAccount(l: Ledger): (r: Opened)
    ensures |r.ledger| == |l| + 1 && r.ledger[..|l|] == l
    ensures r.ledger[|l|] == r.account
    ensures r.account == Plain(NextAccountId(l), 0.0)
  {
    var a := Plain(NextAccountId(l), 0.0);
    Opened(l + [a], a)
  }

  /** `openSavingsAccount(rate)`: appends a savings account with the next id,
      a zero balance and the given rate, which is not validated. */
  function OpenSavingsAccount(l: Ledger, rate: real): (r: Opened)
    ensures |r.ledger| == |l| + 1 && r.ledger[..|l|] == l
    ensures r.ledger[|l|] == r.account
    ensures r.account == Savings(NextAccountId(l), 0.0, rate)
  {
    var a := Savings(NextAccountId(l), 0.0, rate);
    Opened(l + [a], a)
  }

  /** `ArrayList.remove(a)`: drops the first account that `equals` `a`, if any. */
  function RemoveFirstEqual(l: Ledger, a: Account): (r: Ledger)
    ensures IndexOfEqual(l, a) == -1 ==> r == l
    ensures IndexOfEqual(l, a) >= 0 ==>
              r == l[..IndexOfEqual(l, a)] + l[IndexOfEqual(l, a) + 1..]
  {
    if |l| == 0 then l
    else if SameAccount(l[0], a) then l[1..]
    else
      var k := IndexOfEqual(l[1..], a);
      assert IndexOfEqual(l, a) == if k == -1 then -1 else k + 1;
      assert k >= 0 ==> l[..k + 1] + l[k + 2..] == [l[0]] + (l[1..][..k] + l[1..][k + 1..]);
      [l[0]] + RemoveFirstEqual(l[1..], a)
  }

  /** `closeAccount(id)`: looks the account up, then removes it with
      `ArrayList.remove`, which again compares by id and balance. */
  function CloseAccount(l: Ledger, id: int32): (r: Effect<Ledger>)
    ensures r.outcome.Fail? <==> Absent(l, id)
    ensures r.outcome.Fail? ==> r.outcome.error == AccountNotFound(id) && r.state == l
    ensures r.outcome.Pass? ==>
              exists i :: FirstWithId(l, id, i) && r.state == l[..i] + l[i + 1..]
  {
    match Scan(l, id)
    case Err(e) => Effect(l, Fail(e))
    case Ok(i) => Effect(RemoveFirstEqual(l, l[i]), Pass)
  }

  /** `transferFunds(from, to, amount)`: rejects a non-positive amount, looks
      up the source and then the destination, withdraws from the source and,
      only if that succeeded, deposits into the destination. The accounts
      changed are the ones the lookups found: the first with each id. */
  function TransferFunds(l: Ledger, from: int32, to: int32, amount: real): (r: Effect<Ledger>)
    ensures |r.state| == |l|
    ensures forall k :: 0 <= k < |l| ==> SameHolder(l[k], r.state[k])
    ensures r.outcome.Fail? ==> r.state == l
    ensures amount <= 0.0 ==> r.outcome == Fail(InvalidAmount)
    ensures amount > 0.0 && Absent(l, from) ==> r.outcome == Fail(AccountNotFound(from))
    ensures amount > 0.0 && !Absent(l, from) && Absent(l, to) ==> r.outcome == Fail(AccountNotFound(to))
  {
    if amount <= 0.0 then Effect(l, Fail(InvalidAmount))
    else match Scan(l, from)
      case Err(e) => Effect(l, Fail(e))
      case Ok(i) =>
        match Scan(l, to)
        case Err(e) => Effect(l, Fail(e))
        case Ok(j) =>
          var w := Withdraw(l[i], amount);
          var afterWithdraw := l[i := w.state];
          if w.outcome.Fail? then Effect(afterWithdraw, w.outcome)
          else
            var d := Deposit(afterWithdraw[j], amount);
            Effect(afterWithdraw[j := d.state], d.outcome)
  }
}

=== FILE: bank_properties.dfy ===
/** Properties of the ledger that relate several calls, or a call to an
    independent description of what it should do. */
module BankProperties {
  import opened Ints
  import opened Outcomes
  import opened Accounts
  import opened Bank

  /** `getAccountIndex` points at the very account `getAccount` returns. */
  lemma IndexAgreesWithLookup(l: Ledger, id: int32)
    ensures GetAccount(l, id).Ok? <==> GetAccountIndex(l, id).Ok?
    ensures GetAccount(l, id).Ok? ==> l[GetAccountIndex(l, id).value] == GetAccount(l, id).value
  {
  }

  /** Replacing one account changes the total by exactly the change in that
      account's balance. */
  lemma {:induction false} TotalAfterUpdate(l: Ledger, k: nat, a: Account)
    requires k < |l|
    ensures TotalBalance(l[k := a]) == TotalBalance(l) - l[k].balance + a.balance
  {
    if k > 0 {
      TotalAfterUpdate(l[1..], k - 1, a);
      assert l[k := a][1..] == l[1..][k - 1 := a];
    } else {
      assert l[k := a][1..] == l[1..];
    }
  }

  /** A successful transfer between two different accounts moves `amount` from
      the first account with id `from` to the first with id `to`, and touches
      nothing else. */
  lemma TransferMovesAmount(l: Ledger, from: int32, to: int32, amount: real, i: nat, j: nat)
    requires FirstWithId(l, from, i) && FirstWithId(l, to, j) && from != to
    requires 0.0 < amount <= l[i].balance
    ensures TransferFunds(l, from, to, amount).outcome == Pass
    ensures TransferFunds(l, from, to, amount).state[i].balance == l[i].balance - amount
    ensures TransferFunds(l, from, to, amount).state[j].balance == l[j].balance + amount
    ensures forall k :: 0 <= k < |l| && k != i && k != j ==> TransferFunds(l, from, to, amount).state[k] == l[k]
  {
    assert Scan(l, from) == Ok(i);
    assert Scan(l, to) == Ok(j);
  }

  /** A transfer from an account to itself that succeeds leaves the ledger
      exactly as it was. */
  lemma TransferToSelf(l: Ledger, id: int32, amount: real, i: nat)
    requires FirstWithId(l, id, i)
    requires 0.0 < amount <= l[i].balance
    ensures TransferFunds(l, id, id, amount) == Effect(l, Pass)
  {
    assert Scan(l, id) == Ok(i);
    var w := Withdraw(l[i], amount).state;
    assert w.(balance := w.balance + amount) == l[i];
    assert l[i := w][i := l[i]] == l;
  }

  /** Asking for more than the source holds raises InsufficientFunds with the
      source's balance and the amount, and every balance stays as it was. */
  lemma TransferInsufficientFunds(l: Ledger, from: int32, to: int32, amount: real, i: nat)
    requires FirstWithId(l, from, i) && !Absent(l, to)
    requires 0.0 < amount && l[i].balance < amount
    ensures TransferFunds(l, from, to, amount) == Effect(l, Fail(InsufficientFunds(l[i].balance, amount)))
  {
    assert Scan(l, from) == Ok(i);
  }

  /** Every transfer, whichever way it ends, keeps the total of all balances. */
  lemma TransferKeepsTotal(l: Ledger, from: int32, to: int32, amount: real)
    ensures TotalBalance(TransferFunds(l, from, to, amount).state) == TotalBalance(l)
  {
    var r := TransferFunds(l, from, to, amount);
    if amount > 0.0 && Scan(l, from).Ok? && Scan(l, to).Ok? {
      var i, j := Scan(l, from).value, Scan(l, to).value;
      var w := Withdraw(l[i], amount);
      if w.outcome.Pass? {
        var l1 := l[i := w.state];
        var d := Deposit(l1[j], amount);
        TotalAfterUpdate(l, i, w.state);
        TotalAfterUpdate(l1, j, d.state);
      }
    }
  }

  /** A transfer followed by the same transfer back restores the ledger,
      provided the destination's balance was not negative (otherwise it may
      not hold enough to send the amount back). */
  lemma TransferThenBack(l: Ledger, from: int32, to: int32, amount: real, i: nat, j: nat)
    requires FirstWithId(l, from, i) && FirstWithId(l, to, j) && from != to
    requires 0.0 < amount <= l[i].balance && l[j].balance >= 0.0
    ensures TransferFunds(TransferFunds(l, from, to, amount).state, to, from, amount) == Effect(l, Pass)
  {
    var m := TransferFunds(l, from, to, amount).state;
    TransferMovesAmount(l, from, to, amount, i, j);
    assert FirstWithId(m, from, i) && FirstWithId(m, to, j);
    TransferMovesAmount(m, to, from, amount, j, i);
    var back := TransferFunds(m, to, from, amount).state;
    forall k | 0 <= k < |l|
      ensures back[k] == l[k]
    {
      if k == i || k == j {
        assert back[k].balance == l[k].balance;
        assert back[k] == l[k].(balance := back[k].balance);
      }
    }
    assert back == l;
  }

  /** Opening `n` plain accounts in a row. */
  function OpenRepeatedly(l: Ledger, n: nat): (r: Ledger)
    ensures |r| == |l| + n
  {
    if n == 0 then l else OpenBankAccount(OpenRepeatedly(l, n - 1)).ledger
  }

  /** Opening `n` accounts on an empty ledger numbers them 1 to n, all with a
      zero balance. */
  lemma {:induction false} OpenFromEmpty(n: nat)
    requires n <= INT_MAX
    ensures forall k :: 0 <= k < n ==> OpenRepeatedly([], n)[k] == Plain((k + 1) as int32, 0.0)
  {
    if n > 0 {
      OpenFromEmpty(n - 1);
      var prev := OpenRepeatedly([], n - 1);
      assert n - 1 > 0 ==> prev[n - 2] == Plain((n - 1) as int32, 0.0);
      assert NextAccountId(prev) == n as int32;
    }
  }

  /** Opening a savings account stores whatever rate it is given, even one
      that `setInterestRate` refuses for that very account. */
  lemma RateUncheckedAtConstruction(l: Ledger, rate: real)
    ensures OpenSavingsAccount(l, rate).account.rate == rate
    ensures !ValidRate(rate) ==>
              var a := OpenSavingsAccount(l, rate).account;
              SetInterestRate(a, rate) == Effect(a, Fail(InvalidRate))
  {
  }

  /** Ids strictly increase along the ledger. */
  ghost predicate AscendingIds(l: Ledger) {
    forall i, j :: 0 <= i < j < |l| ==> l[i].id < l[j].id
  }

  /** Opening keeps ids ascending, as long as the last id is not the largest
      32-bit value (whose successor wraps to the smallest). */
  lemma OpenKeepsIdsAscending(l: Ledger, rate: real)
    requires AscendingIds(l)
    requires |l| == 0 || l[|l| - 1].id as int < INT_MAX
    ensures AscendingIds(OpenBankAccount(l).ledger)
    ensures AscendingIds(OpenSavingsAccount(l, rate).ledger)
  {
  }

  /** At the top of the id range the next id wraps around and breaks the order. */
  lemma OpenWrapsAtMaxId(l: Ledger)
    requires |l| > 0 && l[|l| - 1].id as int == INT_MAX
    ensures OpenBankAccount(l).account.id as int == INT_MIN
    ensures !AscendingIds(OpenBankAccount(l).ledger)
  {
    var l' := OpenBankAccount(l).ledger;
    assert l'[|l| - 1].id > l'[|l|].id;
  }

  /** Removing one account keeps ids ascending. */
  lemma RemoveKeepsIdsAscending(l: Ledger, i: nat)
    requires AscendingIds(l) && i < |l|
    ensures AscendingIds(l[..i] + l[i + 1..])
  {
    var l' := l[..i] + l[i + 1..];
    forall a, b | 0 <= a < b < |l'|
      ensures l'[a].id < l'[b].id
    {
      var a', b' := if a < i then a else a + 1, if b < i then b else b + 1;
      assert l'[a] == l[a'] && l'[b] == l[b'];
    }
  }

  /** With ascending ids, removing the account holding `id` leaves none. */
  lemma RemoveLeavesIdAbsent(l: Ledger, id: int32, i: nat)
    requires AscendingIds(l) && FirstWithId(l, id, i)
    ensures Absent(l[..i] + l[i + 1..], id)
  {
    var l' := l[..i] + l[i + 1..];
    forall k | 0 <= k < |l'|
      ensures l'[k].id != id
    {
      if k < i {
        assert l'[k] == l[k];
      } else {
        assert l'[k] == l[k + 1];
      }
    }
  }

  /** Closing keeps ids ascending, and once ids are distinct the closed id is
      gone from the ledger. */
  lemma CloseKeepsIdsAscending(l: Ledger, id: int32)
    requires AscendingIds(l)
    ensures AscendingIds(CloseAccount(l, id).state)
    ensures Absent(CloseAccount(l, id).state, id)
  {
    var r := CloseAccount(l, id);
    if r.outcome.Pass? {
      var i :| FirstWithId(l, id, i) && r.state == l[..i] + l[i + 1..];
      RemoveKeepsIdsAscending(l, i);
      RemoveLeavesIdAbsent(l, id, i);
    }
  }

  /** Opening an account whose id is new to the ledger and closing it again
      gives back the ledger as it was. */
  lemma OpenThenClose(l: Ledger, rate: real)
    requires Absent(l, NextAccountId(l))
    ensures CloseAccount(OpenBankAccount(l).ledger, NextAccountId(l)) == Effect(l, Pass)
    ensures CloseAccount(OpenSavingsAccount(l, rate).ledger, NextAccountId(l)) == Effect(l, Pass)
  {
    var id := NextAccountId(l);
    var l1 := OpenBankAccount(l).ledger;
    var l2 := OpenSavingsAccount(l, rate).ledger;
    assert FirstWithId(l1, id, |l|) && FirstWithId(l2, id, |l|);
    assert l1[..|l|] + l1[|l| + 1..] == l;
    assert l2[..|l|] + l2[|l| + 1..] == l;
  }

  /** Because the next id follows the last account rather than the largest,
      closing the newest account and opening another hands out the closed
      account's id again. */
  lemma {:induction false} ReopenReusesClosedId(n: nat)
    requires 1 <= n <= INT_MAX
    ensures OpenBankAccount(CloseAccount(OpenRepeatedly([], n), n as int32).state).account.id == n as int32
  {
    var l := OpenRepeatedly([], n);
    OpenFromEmpty(n);
    assert FirstWithId(l, n as int32, n - 1);
    var r := CloseAccount(l, n as int32);
    var i :| FirstWithId(l, n as int32, i) && r.state == l[..i] + l[i + 1..];
    assert i == n - 1;
    assert r.state == l[..n - 1];
    if n > 1 {
      assert r.state[n - 2] == Plain((n - 1) as int32, 0.0);
    }
  }

  /** On a ledger whose ids are not in increasing order (a loaded file can be
      like that) opening an account duplicates an id already present. */
  lemma OpenCanDuplicateId()
    ensures var l := [Plain(3, 0.0), Plain(2, 0.0)];
            OpenBankAccount(l).account.id == l[0].id
  {
  }

  /** A two-account case: 50 moves from a plain account holding 100 to a savings
      account holding 200; the savings rate is untouched, and looking up an id
      that is not there names that id. */
  lemma TransferScenario()
    ensures var l := [Plain(1, 100.0), Savings(2, 200.0, 0.05)];
            TransferFunds(l, 1, 2, 50.0) == Effect([Plain(1, 50.0), Savings(2, 250.0, 0.05)], Pass)
    ensures GetAccount([Plain(1, 100.0), Savings(2, 200.0, 0.05)], 99) == Err(AccountNotFound(99))
  {
    var l := [Plain(1, 100.0), Savings(2, 200.0, 0.05)];
    assert Scan(l, 1) == Ok(0);
    assert Scan(l[1..], 2) == Ok(0);
    assert Scan(l, 2) == Ok(1);
    TransferMovesAmount(l, 1, 2, 50.0, 0, 1);
    var r := TransferFunds(l, 1, 2, 50.0);
    assert r.state[0] == Plain(1, 50.0);
    assert r.state[1] == Savings(2, 250.0, 0.05);
    assert r.state == [r.state[0], r.state[1]];
  }
}

=== FILE: ints.dfy ===
/** Java's 32-bit `int`, used for account ids, with the two's-complement
    wrap-around that `+ 1` has at the top of the range. */
module Ints {

  const INT_MIN: int := -0x8000_0000
  const INT_MAX: int := 0x7fff_ffff

  newtype int32 = x: int | -0x8000_0000 <= x < 0x8000_0000

  /** Narrowing of an unbounded integer to 32 bits, as the JVM does it:
      the unique int32 congruent to `n` modulo 2^32. */
  function Wrap(n: int): (r: int32)
    ensures (r as int - n) % 0x1_0000_0000 == 0
    ensures INT_MIN <= n <= INT_MAX ==> r as int == n
  {
    ((n - INT_MIN) % 0x1_0000_0000 + INT_MIN) as int32
  }

  /** Java's `x + 1` on an `int`. */
  function Succ(x: int32): (r: int32)
    ensures r == Wrap(x as int + 1)
    ensures x as int < INT_MAX ==> r > x
  {
    if x as int == INT_MAX then INT_MIN as int32 else x + 1
  }
}

=== FILE: outcomes.dfy ===
/** The exceptions the bank can raise, and the shapes used to return them:
    `Result` for queries that either answer or raise, `Effect` for calls that
    change state and may raise on the way. */
module Outcomes {
  import opened Ints

  /** One variant per exception the ledger and its accounts throw. */
  datatype Error =
    | InvalidAmount                                     // IllegalArgumentException: amount <= 0
    | InvalidRate                                       // IllegalArgumentException: rate outside (0, 1)
    | InsufficientFunds(available: real, requested: real)
    | AccountNotFound(id: int32)
    | ParseError                                        // NumberFormatException from a record field

  datatype Option<+T> = None | Some(value: T)

  /** A query that either returns a value or raises. */
  datatype Result<+T> = Ok(value: T) | Err(error: Error) {
    predicate IsFailure() {
      Err?
    }

    function PropagateFailure<U>(): Result<U>
      requires Err?
    {
      Err(error)
    }

    function Extract(): T
      requires Ok?
    {
      value
    }
  }

  /** Whether a state-changing call returned normally or raised. */
  datatype Outcome = Pass | Fail(error: Error)

  /** The state an object is left in by a call, together with how the call
      ended. A call that raises still leaves a state behind; the contracts say
      what that state is. */
  datatype Effect<+S> = Effect(state: S, outcome: Outcome)
}

=== FILE: records.dfy ===
/** The accounts file, one record per line: `id,balance` for a plain account,
    `id,balance,rate` for a savings account. Reading and writing the file
    itself is left to the caller; this module turns accounts into lines and
    lines back into accounts. The number-to-text conversions of the Java
    library are a parameter. */
module Records {
  import opened Ints
  import opened Outcomes
  import opened Accounts
  import opened Bank

  /** `String.valueOf` and `Integer.parseInt` / `Double.parseDouble`. A parse
      that throws NumberFormatException answers None. */
  datatype TextCodec = TextCodec(
    formatInt: int32 -> string,
    parseInt: string -> Option<int32>,
    formatReal: real -> string,
    parseReal: string -> Option<real>)

  /** A field that survives being joined with commas and split again. */
  predicate CleanField(s: string) {
    |s| > 0 && ',' !in s
  }

  /** The numbers of account `a` survive the codec: each formats to a clean
      field that parses back to the same number. */
  predicate RoundTrips(c: TextCodec, a: Account) {
    && c.parseInt(c.formatInt(a.id)) == Some(a.id) && CleanField(c.formatInt(a.id))
    && c.parseReal(c.formatReal(a.balance)) == Some(a.balance) && CleanField(c.formatReal(a.balance))
    && (a.Savings? ==> c.parseReal(c.formatReal(a.rate)) == Some(a.rate) && CleanField(c.formatReal(a.rate)))
  }

  /** Every account of the ledger survives the codec. Only the numbers that
      are actually saved need to round-trip, as a double does through
      `String.valueOf` and `Double.parseDouble`. */
  ghost predicate FaithfulOn(c: TextCodec, l: Ledger) {
    forall k :: 0 <= k < |l| ==> RoundTrips(c, l[k])
  }

  /** Position of the first comma, if any. */
  function FirstComma(s: string): (r: Option<nat>)
    ensures r.None? <==> ',' !in s
    ensures r.Some? ==> r.value < |s| && s[r.value] == ',' && ',' !in s[..r.value]
  {
    if |s| == 0 then None
    else if s[0] == ',' then Some(0)
    else match FirstComma(s[1..])
      case None => None
      case Some(k) => Some(k + 1)
  }

  /** Every comma-separated piece of `s`, empty ones included. */
  function Pieces(s: string): (r: seq<string>)
    ensures |r| >= 1
    ensures forall k :: 0 <= k < |r| ==> ',' !in r[k]
    ensures ',' !in s ==> r == [s]
    decreases |s|
  {
    match FirstComma(s)
    case None => [s]
    case Some(k) => [s[..k]] + Pieces(s[k + 1..])
  }

  /** Trailing empty strings removed. */
  function DropTrailingEmpty(p: seq<string>): (r: seq<string>)
    ensures r <= p
    ensures |r| > 0 ==> r[|r| - 1] != ""
    ensures forall k :: |r| <= k < |p| ==> p[k] == ""
  {
    if |p| == 0 then p
    else if p[|p| - 1] == "" then DropTrailingEmpty(p[..|p| - 1])
    else p
  }

  /** `line.split(",")`: a line without a comma is its own single field;
      otherwise the pieces between commas, with trailing empty pieces dropped
      (so a line of commas alone has no fields at all). */
  function Split(line: string): (r: seq<string>)
    ensures forall k :: 0 <= k < |r| ==> ',' !in r[k]
    ensures ',' !in line ==> r == [line]
    ensures ',' in line && |r| > 0 ==> r[|r| - 1] != ""
  {
    if ',' !in line then [line] else DropTrailingEmpty(Pieces(line))
  }

  /** `String.join(",", fields)`: the first field, then a comma before each
      further field. */
  function Join(fields: seq<string>): (r: string)
    ensures |fields| > 0 ==> fields[0] <= r
    ensures |fields| > 1 ==> |r| > |fields[0]| && r[|fields[0]|] == ','
  {
    if |fields| == 0 then ""
    else if |fields| == 1 then fields[0]
    else fields[0] + "," + Join(fields[1..])
  }

  /** Joining the pieces of a string puts back the commas between them, so
      `Pieces` loses nothing. */
  lemma {:induction false} JoinOfPieces(s: string)
    ensures Join(Pieces(s)) == s
    decreases |s|
  {
    match FirstComma(s)
    case None =>
      assert Pieces(s) == [s];
    case Some(k) =>
      CommaAt(s, k);
      JoinPiecesStep(s, k);
      JoinOfPieces(s[k + 1..]);
  }

  /** A string with a comma at `k` is the text before it, the comma, and the
      text after it. */
  lemma CommaAt(s: string, k: nat)
    requires k < |s| && s[k] == ','
    ensures s == s[..k] + "," + s[k + 1..]
  {
    assert s == s[..k] + [s[k]] + s[k + 1..];
  }

  /** Joining the pieces of a string with a comma at `k` puts the text before
      it, a comma, and the joined pieces of the rest. */
  lemma JoinPiecesStep(s: string, k: nat)
    requires FirstComma(s) == Some(k)
    ensures k < |s|
    ensures Join(Pieces(s)) == s[..k] + "," + Join(Pieces(s[k + 1..]))
  {
    var rest := Pieces(s[k + 1..]);
    var fields := [s[..k]] + rest;
    assert Pieces(s) == fields;
    assert fields[0] == s[..k] && fields[1..] == rest;
  }

  /** `split` drops only trailing empty fields: padding its result with empty
      fields back to the number of pieces and joining gives the line again, so
      leading and middle empty fields are kept in place. */
  lemma JoinSplit(line: string)
    requires ',' in line
    ensures |Split(line)| <= |Pieces(line)|
    ensures Join(Split(line) + seq(|Pieces(line)| - |Split(line)|, _ => "")) == line
  {
    JoinOfPieces(line);
    var p := Pieces(line);
    var r := Split(line);
    assert r + seq(|p| - |r|, _ => "") == p;
  }

  /** Joining fields free of commas and splitting the line again gives the
      pieces back. */
  lemma {:induction false} PiecesOfJoin(fields: seq<string>)
    requires |fields| >= 1
    requires forall k :: 0 <= k < |fields| ==> ',' !in fields[k]
    ensures Pieces(Join(fields)) == fields
    decreases |fields|
  {
    if |fields| > 1 {
      var s := Join(fields);
      var head := fields[0];
      assert s == head + "," + Join(fields[1..]);
      assert FirstComma(s) == Some(|head|) by {
        assert s[..|head|] == head;
        assert s[|head|] == ',';
      }
      assert s[..|head|] == head;
      assert s[|head| + 1..] == Join(fields[1..]);
      PiecesOfJoin(fields[1..]);
    }
  }

  /** For two or more clean fields, `split` inverts `join`. */
  lemma SplitJoin(fields: seq<string>)
    requires |fields| >= 2
    requires forall k :: 0 <= k < |fields| ==> CleanField(fields[k])
    ensures Split(Join(fields)) == fields
  {
    PiecesOfJoin(fields);
    var line := Join(fields);
    assert line == fields[0] + "," + Join(fields[1..]);
    assert line[|fields[0]|] == ',';
  }

  /** The fields `saveAccounts` writes for one account. */
  function RecordFields(a: Account, c: TextCodec): (r: seq<string>)
    ensures |r| == if a.Savings? then 3 else 2
  {
    [c.formatInt(a.id), c.formatReal(a.balance)] + (if a.Savings? then [c.formatReal(a.rate)] else [])
  }

  /** The line `saveAccounts` writes for one account. When the account's
      numbers survive the codec, splitting the line gives back its fields. */
  function RecordLine(a: Account, c: TextCodec): (r: string)
    ensures RoundTrips(c, a) ==> Split(r) == RecordFields(a, c)
  {
    RecordSplits(a, c);
    Join(RecordFields(a, c))
  }

  /** Splitting the joined fields of an account whose numbers survive the
      codec gives back those fields. */
  lemma RecordSplits(a: Account, c: TextCodec)
    ensures RoundTrips(c, a) ==> Split(Join(RecordFields(a, c))) == RecordFields(a, c)
  {
    if RoundTrips(c, a) {
      SplitJoin(RecordFields(a, c));
    }
  }

  /** `saveAccounts` without the file: one line per account, in ledger order. */
  function SaveAccounts(l: Ledger, c: TextCodec): (r: seq<string>)
    ensures |r| == |l|
    ensures forall k :: 0 <= k < |l| ==> r[k] == RecordLine(l[k], c)
  {
    seq(|l|, k requires 0 <= k < |l| => RecordLine(l[k], c))
  }

  function ParseInt(c: TextCodec, s: string): Result<int32>
  {
    match c.parseInt(s)
    case None => Err(ParseError)
    case Some(n) => Ok(n)
  }

  function ParseReal(c: TextCodec, s: string): Result<real>
  {
    match c.parseReal(s)
    case None => Err(ParseError)
    case Some(x) => Ok(x)
  }

  /** What `readAccounts` does with one split line: fewer than two fields are
      skipped; otherwise id and balance are parsed (a bad number raises), two
      fields make a plain account, three a savings account whose rate is
      parsed too, and four or more make nothing. */
  function ParseRecord(fields: seq<string>, c: TextCodec): (r: Result<Option<Account>>)
    ensures |fields| < 2 ==> r == Ok(None)
    ensures r.Err? ==> r.error == ParseError
    ensures |fields| >= 2 && c.parseInt(fields[0]).None? ==> r.Err?
    ensures |fields| >= 2 && c.parseReal(fields[1]).None? ==> r.Err?
    ensures r.Ok? && r.value.Some? ==>
              && |fields| in {2, 3}
              && (r.value.value.Plain? <==> |fields| == 2)
              && Some(r.value.value.id) == c.parseInt(fields[0])
              && Some(r.value.value.balance) == c.parseReal(fields[1])
              && (r.value.value.Savings? ==> Some(r.value.value.rate) == c.parseReal(fields[2]))
    ensures |fields| >= 4 && r.Ok? ==> r.value.None?
    ensures r.Err? <==>
              && |fields| >= 2
              && (|| c.parseInt(fields[0]).None?
                  || c.parseReal(fields[1]).None?
                  || (|fields| == 3 && c.parseReal(fields[2]).None?))
    ensures r.Ok? && |fields| in {2, 3} ==> r.value.Some?
  {
    if |fields| < 2 then Ok(None)
    else
      var id :- ParseInt(c, fields[0]);
      var balance :- ParseReal(c, fields[1]);
      if |fields| == 2 then Ok(Some(Plain(id, balance)))
      else if |fields| == 3 then
        var rate :- ParseReal(c, fields[2]);
        Ok(Some(Savings(id, balance, rate)))
      else Ok(None)
  }

  /** `readAccounts` without the file: appends to the ledger it is given,
      one account per well-formed line, in line order. A parse error stops the
      reading, and the accounts read before it stay in the ledger. */
  function ReadAccounts(l: Ledger, lines: seq<string>, c: TextCodec): (r: Effect<Ledger>)
    ensures |l| <= |r.state| <= |l| + |lines|
    ensures r.state[..|l|] == l
    ensures r.outcome.Fail? ==> r.outcome.error == ParseError
    ensures r.outcome.Pass? <==> forall k :: 0 <= k < |lines| ==> ParseRecord(Split(lines[k]), c).Ok?
    decreases |lines|
  {
    if |lines| == 0 then Effect(l, Pass)
    else match ParseRecord(Split(lines[0]), c)
      case Err(e) => Effect(l, Fail(e))
      case Ok(None) => ReadAccounts(l, lines[1..], c)
      case Ok(Some(a)) => ReadAccounts(l + [a], lines[1..], c)
  }

  /** The line saved for an account splits into two fields for a plain
      account and three for a savings account, and parses back to it. */
  lemma RecordRoundTrip(a: Account, c: TextCodec)
    requires RoundTrips(c, a)
    ensures |Split(RecordLine(a, c))| == if a.Savings? then 3 else 2
    ensures ParseRecord(Split(RecordLine(a, c)), c) == Ok(Some(a))
  {
    var fields := RecordFields(a, c);
    SplitJoin(fields);
  }

  /** One step of reading: a line that parses to an account appends it and
      reading goes on with the next line. */
  lemma ReadStep(l0: Ledger, lines: seq<string>, c: TextCodec, a: Account)
    requires |lines| > 0 && ParseRecord(Split(lines[0]), c) == Ok(Some(a))
    ensures ReadAccounts(l0, lines, c) == ReadAccounts(l0 + [a], lines[1..], c)
  {
  }

  /** One step of reading: a line that yields no account (too few or too many
      fields) adds nothing, and reading goes on with the next line. */
  lemma SkipStep(l0: Ledger, lines: seq<string>, c: TextCodec)
    requires |lines| > 0 && ParseRecord(Split(lines[0]), c) == Ok(None)
    ensures ReadAccounts(l0, lines, c) == ReadAccounts(l0, lines[1..], c)
  {
  }

  /** Lines that all yield no account leave the ledger as it was. */
  lemma {:induction false} NoAccountLines(l: Ledger, lines: seq<string>, c: TextCodec)
    requires forall k :: 0 <= k < |lines| ==> ParseRecord(Split(lines[k]), c) == Ok(None)
    ensures ReadAccounts(l, lines, c) == Effect(l, Pass)
    decreases |lines|
  {
    if |lines| > 0 {
      SkipStep(l, lines, c);
      assert forall k :: 0 <= k < |lines[1..]| ==> lines[1..][k] == lines[k + 1];
      NoAccountLines(l, lines[1..], c);
    }
  }

  /** A line that fails to parse stops reading at once: it adds nothing, and
      the ledger read so far is what remains. */
  lemma FailStep(l0: Ledger, lines: seq<string>, c: TextCodec)
    requires |lines| > 0 && ParseRecord(Split(lines[0]), c).Err?
    ensures ReadAccounts(l0, lines, c) == Effect(l0, Fail(ParseError))
  {
  }

  /** The lines saved after the first account are the lines of the rest. */
  lemma SaveTail(l: Ledger, c: TextCodec)
    requires |l| > 0
    ensures SaveAccounts(l, c)[0] == RecordLine(l[0], c)
    ensures SaveAccounts(l, c)[1..] == SaveAccounts(l[1..], c)
  {
  }

  lemma AppendHead(l0: Ledger, l: Ledger)
    requires |l| > 0
    ensures l0 + [l[0]] + l[1..] == l0 + l
  {
    assert [l[0]] + l[1..] == l;
  }

  /** Reading back what was saved appends exactly the saved ledger. */
  lemma {:induction false} SaveThenRead(l0: Ledger, l: Ledger, c: TextCodec)
    requires FaithfulOn(c, l)
    ensures ReadAccounts(l0, SaveAccounts(l, c), c) == Effect(l0 + l, Pass)
    decreases |l|
  {
    var lines := SaveAccounts(l, c);
    if |l| == 0 {
      assert lines == [];
      assert l0 + l == l0;
    } else {
      SaveTail(l, c);
      RecordRoundTrip(l[0], c);
      ReadStep(l0, lines, c, l[0]);
      assert FaithfulOn(c, l[1..]) by {
        forall k | 0 <= k < |l[1..]|
          ensures RoundTrips(c, l[1..][k])
        {
          assert l[1..][k] == l[k + 1];
        }
      }
      SaveThenRead(l0 + [l[0]], l[1..], c);
      var rest := ReadAccounts(l0 + [l[0]], SaveAccounts(l[1..], c), c);
      assert rest == Effect(l0 + [l[0]] + l[1..], Pass);
      AppendHead(l0, l);
    }
  }

  /** Saving a ledger and loading the file into an empty ledger reproduces the
      ledger: same accounts, same order, same variants, same rates. */
  lemma SaveThenLoad(l: Ledger, c: TextCodec)
    requires FaithfulOn(c, l)
    ensures ReadAccounts([], SaveAccounts(l, c), c) == Effect(l, Pass)
  {
    SaveThenRead([], l, c);
    assert [] + l == l;
  }

  /** Loading does not clear the ledger: what was there stays in front. */
  lemma LoadAppends(l0: Ledger, l: Ledger, c: TextCodec)
    requires FaithfulOn(c, l)
    requires |l0| > 0
    ensures ReadAccounts(l0, SaveAccounts(l, c), c).state[..|l0|] == l0
    ensures |ReadAccounts(l0, SaveAccounts(l, c), c).state| == |l0| + |l|
  {
    SaveThenRead(l0, l, c);
  }

  /** The pieces of a field followed by a trailing comma. */
  lemma PiecesOfTrailingComma()
    ensures Pieces("2.5,") == ["2.5", ""]
  {
    assert FirstComma("2.5,") == Some(3);
    assert "2.5,"[..3] == "2.5" && "2.5,"[4..] == "";
    assert Pieces("") == [""];
  }

  /** A trailing comma adds no field: the line is read as a plain account. */
  lemma SplitTrailingComma()
    ensures Split("7,2.5,") == ["7", "2.5"]
  {
    assert FirstComma("7,2.5,") == Some(1);
    assert "7,2.5,"[..1] == "7" && "7,2.5,"[2..] == "2.5,";
    PiecesOfTrailingComma();
    var p := Pieces("7,2.5,");
    assert p == ["7", "2.5", ""];
    assert p[..2] == ["7", "2.5"];
    assert DropTrailingEmpty(p[..2]) == ["7", "2.5"];
    assert DropTrailingEmpty(p) == ["7", "2.5"];
    assert "7,2.5,"[1] == ',';
  }

  /** A line of commas alone has no fields, so it is skipped. */
  lemma SplitOnlyCommas()
    ensures Split(",,") == []
  {
    assert FirstComma(",,") == Some(0);
    assert FirstComma(",") == Some(0);
    assert ",,"[1..] == "," && ","[1..] == "";
    assert Pieces(",") == ["", ""];
    assert Pieces(",,") == ["", "", ""];
  }

  /** An empty middle field is kept, and then fails to parse as a balance. */
  lemma SplitEmptyMiddle()
    ensures Split("7,,0.1") == ["7", "", "0.1"]
  {
    assert FirstComma("7,,0.1") == Some(1);
    assert FirstComma(",0.1") == Some(0);
    assert "7,,0.1"[..1] == "7" && "7,,0.1"[2..] == ",0.1";
    assert ",0.1"[1..] == "0.1";
    assert Pieces("0.1") == ["0.1"];
    assert Pieces(",0.1") == ["", "0.1"];
    assert Pieces("7,,0.1") == ["7", "", "0.1"];
    assert DropTrailingEmpty(["7", "", "0.1"]) == ["7", "", "0.1"];
  }

  /** The text conversions for a two-account example (plain account 1 holding
      50, savings account 2 holding 250 at rate 0.05), written out literally:
      the ids 1 and 2 and the amounts 50.0, 250.0 and 0.05. */
  function ExampleCodec(): TextCodec
  {
    TextCodec(
      n => if n == 1 then "1" else if n == 2 then "2" else "0",
      s => if s == "1" then Some(1) else if s == "2" then Some(2) else None,
      x => if x == 50.0 then "50.0" else if x == 250.0 then "250.0" else if x == 0.05 then "0.05" else "0.0",
      s => if s == "50.0" then Some(50.0) else if s == "250.0" then Some(250.0)
           else if s == "0.05" then Some(0.05) else None)
  }

  /** The two-account example: a plain account 1 holding 50 and a savings account 2
      holding 250 at rate 0.05 are saved as the lines `1,50.0` and
      `2,250.0,0.05`, and loading those lines gives the same ledger back. */
  lemma ExampleSaveThenLoad()
    ensures SaveAccounts([Plain(1, 50.0), Savings(2, 250.0, 0.05)], ExampleCodec())
            == ["1,50.0", "2,250.0,0.05"]
    ensures ReadAccounts([], ["1,50.0", "2,250.0,0.05"], ExampleCodec())
            == Effect([Plain(1, 50.0), Savings(2, 250.0, 0.05)], Pass)
  {
    var l := [Plain(1, 50.0), Savings(2, 250.0, 0.05)];
    var c := ExampleCodec();
    ExampleIsFaithful();
    ExampleLines();
    SaveThenLoad(l, c);
  }

  /** The numbers of the two-account example survive the example codec. */
  lemma ExampleIsFaithful()
    ensures FaithfulOn(ExampleCodec(), [Plain(1, 50.0), Savings(2, 250.0, 0.05)])
  {
    var c := ExampleCodec();
    assert RoundTrips(c, Plain(1, 50.0));
    assert RoundTrips(c, Savings(2, 250.0, 0.05));
  }

  /** The line saved for account 1 of the two-account example. */
  lemma ExampleFirstLine()
    ensures RecordLine(Plain(1, 50.0), ExampleCodec()) == "1,50.0"
  {
    var c := ExampleCodec();
    assert c.formatInt(1) == "1" && c.formatReal(50.0) == "50.0";
    assert RecordFields(Plain(1, 50.0), c) == ["1", "50.0"];
    assert Join(["1", "50.0"]) == "1" + "," + "50.0";
  }

  /** The line saved for account 2 of the two-account example. */
  lemma ExampleSecondLine()
    ensures RecordLine(Savings(2, 250.0, 0.05), ExampleCodec()) == "2,250.0,0.05"
  {
    ExampleSecondFields();
    JoinThree("2", "250.0", "0.05");
    assert "2" + "," + "250.0" + "," + "0.05" == "2,250.0,0.05";
  }

  lemma JoinThree(x: string, y: string, z: string)
    ensures Join([x, y, z]) == x + "," + y + "," + z
  {
    assert [x, y, z][1..] == [y, z];
    assert [y, z][1..] == [z];
    assert Join([y, z]) == y + "," + z;
    assert Join([x, y, z]) == x + "," + (y + "," + z);
  }

  lemma ExampleSecondFields()
    ensures RecordFields(Savings(2, 250.0, 0.05), ExampleCodec()) == ["2", "250.0", "0.05"]
  {
    var c := ExampleCodec();
    assert c.formatInt(2) == "2" && c.formatReal(250.0) == "250.0" && c.formatReal(0.05) == "0.05";
  }

  /** The lines saved for the two-account example. */
  lemma ExampleLines()
    ensures SaveAccounts([Plain(1, 50.0), Savings(2, 250.0, 0.05)], ExampleCodec())
            == ["1,50.0", "2,250.0,0.05"]
  {
    ExampleFirstLine();
    ExampleSecondLine();
  }
}
